=== FILE: README.md ===
# Struct and enum decoder generator, modelled in Dafny

The generator finds struct and enum declarations carrying the `Serializable`
marker attribute and, for each, emits a `{Name}Serializer` class holding a
single shared `Instance` whose `Deserialize(ref Utf8JsonReader)` turns JSON
tokens into a value of the type. This project models the decisions the
generator takes and what the emitted decoders do:

- `Generation`: whether a declaration is marked, the innermost enclosing
  namespace, the constructor the struct decoder calls (most parameters, the
  earliest on a tie), the artifact's names, and the two build-time errors
  (`No namespace for {name}`, `No constructor for {name}`).
- `StructDecoder`: the emitted struct decoder. `Loop`, `RunFragments` and
  `Decode` specify it as functions over the token sequence and a cursor;
  `DecodeStruct` performs it step by step over an array of slots, as the
  emitted code does, and is proved equal to `Decode`; its read loop
  `ReadProperties` is proved to agree with `Loop` and `Replay`, and the
  PropertyName arm `DispatchProperty` with `RunFragments` and `Replay`.
  The naming policy's per-parameter code is not part of this model, so a
  policy is a parameter: whether a parameter renders, and what its fragment
  does when run at a cursor position (nothing, read some tokens and assign a
  value, or throw).
- `EnumDecoder`: the emitted enum decoder, reading one String token and
  looking its text up among the labels ignoring case.
- `Scenarios`: worked examples (a two-field `Point`, a `Color` enum) under an
  illustrative name-matching policy.

The reader is a token sequence and a cursor index passed in and returned, as
the `ref` reader is; a `Read` at the end of the stream fails and leaves the
cursor where it is (`Tokens.Advance`). Both decoders start with a `Read`
whose result they do not check, so the token they test is the one current
after it (`Tokens.CurrentAfterRead`): the next token, or at the end of the
stream the kind of the token read before with its text cleared, or no token
at all on an empty stream.

Where the intended behaviour of the generator and its code differ, the model follows the code:

- The intent is that an unrecognised property's value is skipped. The loop as
  written skips nothing: it has no nesting depth, so the EndObject of a nested
  object under an unknown key ends decoding (`Scenarios.PointNestedUnknownObject`).

The loop stops when `Read` reports the end of the data and constructs a
value from the slots it has, so an object with no EndObject still decodes
(`StructDecoder.TruncatedObjectDecodes`, `Scenarios.PointTruncatedObject`).
This is what happens when the reader reports the end without throwing, as
over a buffer that is not the final one. Over the final buffer the reader
throws itself on an unclosed object, and the model leaves that out.

## Model

| member | source | states |
|---|---|---|
| Generation.MarkerAttribute | StructSerializer/SerializerGenerator.cs:46-59 | the attribute looked at is the first whose identifiers resolve to a type named `SerializableAttribute`; there is none, and the declaration is skipped, exactly when no attribute is marked |
| Generation.NearestNamespaceAt | StructSerializer/SerializerGenerator.cs:62-65 | the namespace used is the innermost enclosing block-bodied namespace; none exists exactly when no ancestor is one |
| Generation.SelectConstructor | StructSerializer/SerializerGenerator.cs:66-70 | none exactly when there is no constructor; otherwise a constructor with at least as many parameters as every other, and strictly more than every earlier one |
| Generation.SelectionIsStableHead | StructSerializer/SerializerGenerator.cs:66-70 | the selected constructor is exactly the one a stable descending sort by parameter count puts first |
| Generation.ArtifactNamesDistinct | StructSerializer/SerializerGenerator.cs:80-82 | artifact names `{name}Serializer` are equal exactly when the type names are |
| Generation.GenerateStruct | StructSerializer/SerializerGenerator.cs:56-82 | unmarked structs are skipped; a marked one fails naming the type when it lacks a namespace (checked first) or a constructor; otherwise the artifact sits in the nearest namespace, is named `{name}Serializer` with an `Instance`, and decodes into the selected constructor's parameters |
| Generation.GenerateEnum | StructSerializer/SerializerGenerator.cs:146-173 | unmarked enums are skipped; a marked one fails naming the type when it lacks a namespace; otherwise the artifact sits in the nearest namespace, is named `{name}Serializer` with an `Instance`, and reports the type's full name |
| StructDecoder.RunFragments | StructSerializer/SerializerGenerator.cs:104-110 | the fragments run on one cursor that only moves forward; each write goes to a parameter that renders, and the writes come in strictly increasing parameter order |
| StructDecoder.Loop | StructSerializer/SerializerGenerator.cs:98-113 | the loop only moves the cursor forward, stays within the stream, only writes slots of parameters that render, and stops either at the end of the stream or just past an EndObject it read |
| Tokens.Advance | StructSerializer/SerializerGenerator.cs:98 | a Read moves the cursor one token, or not at all at the end of the stream; n Reads move it n tokens, stopping at the end |
| Tokens.CurrentAfterRead | StructSerializer/SerializerGenerator.cs:90 | after an unchecked `Read` the current kind is that of the last token read, NoToken when none was; the text is that of the token the Read consumed, empty when the Read failed |
| StructDecoder.Decode | StructSerializer/SerializerGenerator.cs:88-119 | a failure is a conversion failure, which only a throwing fragment causes, or a StartObject not current after the first Read; a decoded value has one argument per parameter and leaves the cursor at the end of the stream or just past an EndObject |
| StructDecoder.LastWrite | StructSerializer/SerializerGenerator.cs:104-111 | the value of the last assignment to a slot among the writes in order, none exactly when no write targets it |
| StructDecoder.DispatchProperty | StructSerializer/SerializerGenerator.cs:104-111 | running the fragments over the slot array throws exactly when `RunFragments` does, otherwise leaves the cursor and the slots as its writes say |
| StructDecoder.ReadProperties | StructSerializer/SerializerGenerator.cs:98-113 | the read loop over the slot array throws exactly when `Loop` does, otherwise leaves the cursor where `Loop` stops and the slots as its writes say |
| StructDecoder.DecodeStruct | StructSerializer/SerializerGenerator.cs:88-119 | the step-by-step decoder over an array of slots returns exactly what `Decode` specifies |
| StructDecoder.StartObjectRequired | StructSerializer/SerializerGenerator.cs:90-91 | decoding fails with "Expected start of object" exactly when the token current after the first, unchecked, Read is not a StartObject |
| StructDecoder.DecodedArguments | StructSerializer/SerializerGenerator.cs:93-119 | the constructor receives one argument per parameter, in parameter order, each the last value its fragments assigned, else its type's default |
| StructDecoder.NonRenderingKeepsDefault | StructSerializer/SerializerGenerator.cs:93-110 | a parameter the policy does not render always receives its type's default |
| StructDecoder.SkipStretch | StructSerializer/SerializerGenerator.cs:100-102 | tokens other than EndObject and PropertyName change nothing |
| StructDecoder.EndObjectEndsDecoding | StructSerializer/SerializerGenerator.cs:98-103 | when no PropertyName precedes the first EndObject, that EndObject ends decoding whatever follows, with every argument a default |
| StructDecoder.ExhaustedStreamDecodes | StructSerializer/SerializerGenerator.cs:98-119 | when the stream runs out before any EndObject or PropertyName, it still decodes, to the defaults |
| StructDecoder.FragmentsComplete | StructSerializer/SerializerGenerator.cs:104-110 | when no fragment throws, the PropertyName arm always completes |
| StructDecoder.LoopRunsToEnd | StructSerializer/SerializerGenerator.cs:98-113 | when no fragment throws and no EndObject lies ahead, the loop runs to the end of the stream, whatever properties it reads |
| StructDecoder.LoopCompletes | StructSerializer/SerializerGenerator.cs:98-113 | when no fragment throws, the loop always ends normally, whatever the tokens |
| StructDecoder.NoThrowDecodes | StructSerializer/SerializerGenerator.cs:88-119 | when no fragment throws, decoding succeeds exactly when a StartObject is current after the first Read: unknown properties and stray tokens are never errors |
| StructDecoder.TruncatedObjectDecodes | StructSerializer/SerializerGenerator.cs:98-119 | an object with no EndObject after its StartObject still decodes when no fragment throws: cursor at the end, arguments the defaults overwritten by the fragments' assignments |
| EnumDecoder.FindLabel | StructSerializer/SerializerGenerator.cs:185 | the first label equal to the text ignoring case, none exactly when no label matches |
| EnumDecoder.DecodeEnum | StructSerializer/SerializerGenerator.cs:181-185 | fails naming the enum's full name exactly when the token current after the unchecked Read is not a String, fails as an unknown label exactly when no label matches its text (empty after a failed Read), otherwise returns a matching label with the cursor as that Read left it |
| EnumDecoder.DecodeLabelAnyCase | StructSerializer/SerializerGenerator.cs:185 | for labels distinct ignoring case, a current String decodes to a label exactly when it is that label in some case |
| EnumDecoder.DecodeDeclaredLabel | StructSerializer/SerializerGenerator.cs:185 | every declared label decodes to itself |
| Scenarios.PointYThenX | StructSerializer/SerializerGenerator.cs:98-119 | `{"y": 2, "x": 1}` decodes to Point(1, 2) |
| Scenarios.PointXThenY | StructSerializer/SerializerGenerator.cs:98-119 | `{"x": 1, "y": 2}` decodes to Point(1, 2) |
| Scenarios.PointAnyOrder | StructSerializer/SerializerGenerator.cs:98-119 | both orders of x and y decode to Point(1, 2) |
| Scenarios.PointTruncatedObject | StructSerializer/SerializerGenerator.cs:98-119 | `{"x": 1` with no closing brace still decodes, to Point(1, 0) |
| Scenarios.PointMissingProperty | StructSerializer/SerializerGenerator.cs:93-96 | an absent property leaves its parameter at the default |
| Scenarios.PointUnknownProperty | StructSerializer/SerializerGenerator.cs:104-110 | a property no fragment takes is ignored |
| Scenarios.PointRepeatedProperty | StructSerializer/SerializerGenerator.cs:104-111 | of two occurrences of a property the later one wins |
| Scenarios.PointNestedUnknownObject | StructSerializer/SerializerGenerator.cs:98-103 | a nested object's EndObject ends decoding, so later properties are lost |
| Scenarios.PointNotAnObject | StructSerializer/SerializerGenerator.cs:90-91 | a stream not starting with an object fails |
| Scenarios.PointConstructorChoice | StructSerializer/SerializerGenerator.cs:66-71 | of three constructors the earliest with the most parameters is chosen |
| Scenarios.FileScopedNamespaceFails | StructSerializer/SerializerGenerator.cs:62-65 | a file-scoped namespace is not found, so generation fails |
| Scenarios.ColorLabelsDecode | StructSerializer/SerializerGenerator.cs:181-185 | "green" decodes to Green, "purple" is unknown, a Number is refused |
| Scenarios.PointReadPastEnd | StructSerializer/SerializerGenerator.cs:90-91 | run at the end of a stream whose last token is a StartObject, the decoder sees that StartObject again and returns the defaults |
| Scenarios.ColorReadPastEnd | StructSerializer/SerializerGenerator.cs:181-185 | run at the end of a stream whose last token is the String "green", the String kind survives but its text does not, so the empty text is an unknown label |

## Left out

- Walking syntax trees and semantic models to find declarations and their attributes, constructors and ancestors: the host compiler supplies these as `Descriptors` values. Attributes are those found anywhere inside the declaration, as the source searches descendant nodes.
- Adding the generated text to the compilation and its UTF-8 encoding; the character-exact text of the emitted C#. Artifacts are modelled by what they contain.
- The loops over syntax trees and declarations, and the fact that the first build-time exception ends the whole generator run: each declaration is modelled on its own.
- The JSON reader's lexing, and the exceptions it throws itself on malformed or incomplete input: the stream is a sequence of already-typed tokens.
- The JSON naming policy's `Renders` and `RenderDeserialization`: their code is not part of this model, so they are the `Policy` parameter. Order independence and "an unknown key's value is skipped" depend on that code and are not proved in general; each is only illustrated by examples under the illustrative policy in `Scenarios`. Likewise a fragment may look at tokens beyond those it reads, so "tokens after the EndObject that ends the loop do not matter" is proved only when no PropertyName precedes that EndObject.
- `default(T)` for each parameter type is the parameter `zero`; the constructor call is modelled as its argument list.
- EnumDecoder.DecodeEnum: `Enum.Parse` also accepts numeric strings, comma-separated flag lists and surrounding white space; these are reported as unknown labels here.
- EnumDecoder.SameIgnoringCase: only ASCII letters are folded; `Enum.Parse`'s ordinal case-insensitive comparison also folds other letters.
- Declarations nested in types or in nested namespace declarations (`namespace A { namespace B { … } }`): the artifact is placed in a namespace named after the innermost namespace declaration only, where the type's simple name does not resolve, so the emitted code would not compile. The model does not capture that failure, and for such an enum it still records the full name `{namespace}.{name}`.

=== FILE: descriptors.dfy ===
/**
 * What the compiler host knows about a declaration once its syntax tree and
 * semantic model have been walked: the declaration's name, the attributes
 * found inside it, the syntax nodes that enclose it and, for a struct, its
 * constructors.
 */
module Descriptors {

  /** A constructor parameter: its identifier and the text of its declared type. */
  datatype Param = Param(name: string, typeName: string)

  /** A constructor is known by its parameter list, in declaration order. */
  type Constructor = seq<Param>

  /**
   * An attribute found among the declaration's descendant nodes, given by the
   * names of the types its identifier tokens resolve to.
   */
  datatype Attribute = Attribute(identifierTypes: seq<string>)

  /**
   * A syntax node enclosing the declaration, innermost first. Only a
   * block-bodied namespace declaration counts as a namespace: a file-scoped
   * namespace is a different kind of node.
   */
  datatype Ancestor =
    | Namespace(name: string)
    | FileScopedNamespace(name: string)
    | TypeDeclaration(name: string)
    | CompilationUnit

  /** A struct declaration; constructors are listed in declaration order. */
  datatype StructDecl = StructDecl(
    name: string,
    attributes: seq<Attribute>,
    ancestors: seq<Ancestor>,
    constructors: seq<Constructor>)

  /**
   * An enum declaration. Its labels are listed in the order a label lookup
   * searches them: ascending by the underlying value read as an unsigned
   * binary number, so labels with negative values come last.
   */
  datatype EnumDecl = EnumDecl(
    name: string,
    attributes: seq<Attribute>,
    ancestors: seq<Ancestor>,
    labels: seq<string>)
}

=== FILE: enum_decoder.dfy ===
/**
 * What the emitted Deserialize method of an enum decoder does: read one
 * token, require a String, and parse its text as one of the enum's labels
 * ignoring case.
 */
module EnumDecoder {
  import opened Wrappers
  import opened Tokens

  /** Upper-case form of an ASCII letter; every other character is its own. */
  function Upper(c: char): char
  {
    if 'a' <= c <= 'z' then (c as int - 32) as char else c
  }

  /** Equal up to the case of ASCII letters, the comparison a case-insensitive label parse makes. */
  predicate SameIgnoringCase(a: string, b: string)
  {
    |a| == |b| && forall i :: 0 <= i < |a| ==> Upper(a[i]) == Upper(b[i])
  }

  /** The first label, in the order the labels are listed, that matches `text` ignoring case. */
  function FindLabel(labels: seq<string>, text: string): (r: Option<nat>)
    ensures r.None? <==> forall j :: 0 <= j < |labels| ==> !SameIgnoringCase(labels[j], text)
    ensures r.Some? ==>
      r.value < |labels| && SameIgnoringCase(labels[r.value], text) &&
      forall j :: 0 <= j < r.value ==> !SameIgnoringCase(labels[j], text)
  {
    if |labels| == 0 then None
    else if SameIgnoringCase(labels[0], text) then Some(0)
    else match FindLabel(labels[1..], text)
      case None => None
      case Some(j) => Some(j + 1)
  }

  /** The label read, as its position among the labels, and the cursor afterwards. */
  datatype DecodedLabel = DecodedLabel(index: nat, pos: nat)

  datatype DecodeError = ExpectedString(typeFullName: string) | UnknownLabel(text: string)

  /**
   * The enum decoder run from cursor `start`, for an enum with full name
   * `typeFullName`. Its single Read is unchecked: at the end of the stream the
   * reader keeps the kind of the token read before but no text, so a String
   * kept that way is looked up as the empty text.
   */
  function DecodeEnum(typeFullName: string, labels: seq<string>, tokens: seq<Token>, start: nat)
    : (r: Result<DecodedLabel, DecodeError>)
    requires start <= |tokens|
    ensures r.Failure? && r.error.ExpectedString? <==> CurrentAfterRead(tokens, start).kind != String
    ensures r.Failure? && r.error.ExpectedString? ==> r.error.typeFullName == typeFullName
    ensures r.Failure? && r.error.UnknownLabel? <==>
      CurrentAfterRead(tokens, start).kind == String &&
      forall j :: 0 <= j < |labels| ==> !SameIgnoringCase(labels[j], CurrentAfterRead(tokens, start).text)
    ensures r.Success? ==>
      r.value.pos == Advance(tokens, start, 1) && r.value.index < |labels| &&
      SameIgnoringCase(labels[r.value.index], CurrentAfterRead(tokens, start).text)
  {
    var current := CurrentAfterRead(tokens, start);
    if current.kind != String then Failure(ExpectedString(typeFullName))
    else
      match FindLabel(labels, current.text)
      case None => Failure(UnknownLabel(current.text))
      case Some(i) => Success(DecodedLabel(i, Advance(tokens, start, 1)))
  }

  /** No two labels are the same ignoring case. */
  predicate DistinctIgnoringCase(labels: seq<string>)
  {
    forall i, j :: 0 <= i < j < |labels| ==> !SameIgnoringCase(labels[i], labels[j])
  }

  /**
   * For labels distinct ignoring case, a String token decodes to label `i`
   * exactly when its text is that label written in any case (at the end of
   * the stream, the String kind already current, with empty text).
   */
  lemma DecodeLabelAnyCase(typeFullName: string, labels: seq<string>, tokens: seq<Token>, start: nat, i: nat)
    requires DistinctIgnoringCase(labels)
    requires start <= |tokens| && CurrentAfterRead(tokens, start).kind == String && i < |labels|
    ensures DecodeEnum(typeFullName, labels, tokens, start) == Success(DecodedLabel(i, Advance(tokens, start, 1)))
        <==> SameIgnoringCase(labels[i], CurrentAfterRead(tokens, start).text)
  {
  }

  /** Every label, written as declared, decodes to itself: the decoder reads back what a writer of labels wrote. */
  lemma DecodeDeclaredLabel(typeFullName: string, labels: seq<string>, i: nat)
    requires DistinctIgnoringCase(labels) && i < |labels|
    ensures DecodeEnum(typeFullName, labels, [Token(String, labels[i])], 0) == Success(DecodedLabel(i, 1))
  {
  }
}

=== FILE: generation.dfy ===
/**
 * The decisions the generator takes for each declaration before emitting a
 * decoder: whether the declaration is marked, which namespace the decoder goes
 * into, which constructor the struct decoder calls, and what the emitted
 * artifact is called.
 */
module Generation {
  import opened Wrappers
  import opened Descriptors

  /** The simple name of the marker attribute's type; matching is by this name only. */
  const MarkerName: string := "SerializableAttribute"

  /** Every artifact exposes its single shared decoder under this static field. */
  const InstanceField: string := "Instance"

  /** A marked declaration has an attribute with an identifier resolving to a type named like the marker. */
  predicate IsMarked(attributes: seq<Attribute>)
  {
    exists a :: a in attributes && MarkerName in a.identifierTypes
  }

  /**
   * The attribute the generator looks at: the first one with an identifier
   * resolving to a type named like the marker. A declaration without one is
   * skipped.
   */
  function MarkerAttribute(attributes: seq<Attribute>): (r: Option<nat>)
    ensures r.None? <==> !IsMarked(attributes)
    ensures r.Some? ==>
      r.value < |attributes| && MarkerName in attributes[r.value].identifierTypes &&
      forall j :: 0 <= j < r.value ==> MarkerName !in attributes[j].identifierTypes
  {
    if |attributes| == 0 then None
    else if MarkerName in attributes[0].identifierTypes then Some(0)
    else match MarkerAttribute(attributes[1..])
      case None =>
        assert forall a :: a in attributes ==> a == attributes[0] || a in attributes[1..];
        None
      case Some(j) => Some(j + 1)
  }

  /** The position of the innermost enclosing block-bodied namespace. */
  function NearestNamespaceAt(ancestors: seq<Ancestor>): (r: Option<nat>)
    ensures r.None? <==> forall i :: 0 <= i < |ancestors| ==> !ancestors[i].Namespace?
    ensures r.Some? ==>
      r.value < |ancestors| && ancestors[r.value].Namespace? &&
      forall i :: 0 <= i < r.value ==> !ancestors[i].Namespace?
  {
    if |ancestors| == 0 then None
    else if ancestors[0].Namespace? then Some(0)
    else match NearestNamespaceAt(ancestors[1..])
      case None => None
      case Some(i) => Some(i + 1)
  }

  /** The name of the innermost enclosing block-bodied namespace, if any. */
  function NearestNamespace(ancestors: seq<Ancestor>): Option<string>
  {
    match NearestNamespaceAt(ancestors)
    case None => None
    case Some(i) => Some(ancestors[i].name)
  }

  /**
   * The constructor the struct decoder calls: the head of the constructors
   * ordered by parameter count, descending, with a stable sort, that is the
   * earliest of those with the most parameters.
   */
  function SelectConstructor(constructors: seq<Constructor>): (r: Option<nat>)
    ensures r.None? <==> |constructors| == 0
    ensures r.Some? ==> r.value < |constructors|
    ensures r.Some? ==> forall j :: 0 <= j < |constructors| ==> |constructors[j]| <= |constructors[r.value]|
    ensures r.Some? ==> forall j :: 0 <= j < r.value ==> |constructors[j]| < |constructors[r.value]|
  {
    if |constructors| == 0 then None
    else
      var last := |constructors| - 1;
      match SelectConstructor(constructors[..last])
      case None => Some(0)
      case Some(k) => if |constructors[last]| > |constructors[k]| then Some(last) else Some(k)
  }

  /** The stable descending order puts constructor `k` ahead of every other one. */
  predicate RanksFirst(constructors: seq<Constructor>, k: nat)
  {
    k < |constructors| &&
    forall j :: 0 <= j < |constructors| && j != k ==>
      |constructors[j]| < |constructors[k]| || (|constructors[j]| == |constructors[k]| && k < j)
  }

  /** The selected constructor is the one the stable descending order puts first, and no other is. */
  lemma SelectionIsStableHead(constructors: seq<Constructor>, k: nat)
    ensures SelectConstructor(constructors) == Some(k) <==> RanksFirst(constructors, k)
  {
  }

  /** The artifact's class name and its source hint name: the type's name followed by "Serializer". */
  function ArtifactName(typeName: string): string
  {
    typeName + "Serializer"
  }

  /** Two declarations with different names never produce artifacts with the same name. */
  lemma ArtifactNamesDistinct(a: string, b: string)
    ensures ArtifactName(a) == ArtifactName(b) <==> a == b
  {
    if ArtifactName(a) == ArtifactName(b) {
      assert |a| == |b|;
      assert a == ArtifactName(a)[..|a|];
      assert b == ArtifactName(b)[..|b|];
    }
  }

  /** A generated decoder: where it lives, what it is called, and what it decodes. */
  datatype Artifact =
    | StructArtifact(
        hintName: string, namespace: string, className: string, instance: string,
        typeName: string, parameters: seq<Param>)
    | EnumArtifact(
        hintName: string, namespace: string, className: string, instance: string,
        typeName: string, typeFullName: string)

  /** What the generator does with one declaration. */
  datatype Outcome = Skipped | Failed(message: string) | Generated(artifact: Artifact)

  /**
   * The struct generator: an unmarked struct is skipped; a marked one without
   * a namespace or without a constructor fails with a message naming it (the
   * namespace is looked up first); otherwise the artifact's decoder fills one
   * slot per parameter of the selected constructor.
   */
  function GenerateStruct(d: StructDecl): (r: Outcome)
    ensures r.Skipped? <==> !IsMarked(d.attributes)
    ensures r.Failed? <==>
      IsMarked(d.attributes) && (NearestNamespace(d.ancestors).None? || |d.constructors| == 0)
    ensures r.Failed? ==>
      r.message == if NearestNamespace(d.ancestors).None? then "No namespace for " + d.name
                   else "No constructor for " + d.name
    ensures r.Generated? ==>
      var a := r.artifact;
      a.StructArtifact? &&
      Some(a.namespace) == NearestNamespace(d.ancestors) &&
      a.hintName == a.className == ArtifactName(d.name) &&
      a.instance == InstanceField && a.typeName == d.name &&
      exists k: nat :: RanksFirst(d.constructors, k) && a.parameters == d.constructors[k]
  {
    if MarkerAttribute(d.attributes).None? then Skipped
    else match NearestNamespace(d.ancestors)
      case None => Failed("No namespace for " + d.name)
      case Some(ns) =>
        match SelectConstructor(d.constructors)
        case None => Failed("No constructor for " + d.name)
        case Some(k) =>
          SelectionIsStableHead(d.constructors, k);
          var n := ArtifactName(d.name);
          Generated(StructArtifact(n, ns, n, InstanceField, d.name, d.constructors[k]))
  }

  /**
   * The enum generator: an unmarked enum is skipped; a marked one without a
   * namespace fails with a message naming it; otherwise the artifact records
   * the full name its decoder reports on a wrong token.
   */
  function GenerateEnum(d: EnumDecl): (r: Outcome)
    ensures r.Skipped? <==> !IsMarked(d.attributes)
    ensures r.Failed? <==> IsMarked(d.attributes) && NearestNamespace(d.ancestors).None?
    ensures r.Failed? ==> r.message == "No namespace for " + d.name
    ensures r.Generated? ==>
      var a := r.artifact;
      a.EnumArtifact? &&
      Some(a.namespace) == NearestNamespace(d.ancestors) &&
      a.hintName == a.className == ArtifactName(d.name) &&
      a.instance == InstanceField && a.typeName == d.name &&
      a.typeFullName == a.namespace + "." + d.name
  {
    if MarkerAttribute(d.attributes).None? then Skipped
    else match NearestNamespace(d.ancestors)
      case None => Failed("No namespace for " + d.name)
      case Some(ns) =>
        var n := ArtifactName(d.name);
        Generated(EnumArtifact(n, ns, n, InstanceField, d.name, ns + "." + d.name))
  }
}

=== FILE: scenarios.dfy ===
/**
 * Worked examples: a Point struct with two int parameters and a Color enum,
 * decoded under a policy whose fragment assigns a parameter's slot when the
 * property name equals the parameter's name and a Number follows. That
 * policy stands in for the JSON naming policy and is only an illustration.
 */
module Scenarios {
  import opened Wrappers
  import opened Tokens
  import opened Descriptors
  import opened Generation
  import opened StructDecoder
  import EnumDecoder

  /** The value of a string of decimal digits. */
  function DecimalValue(s: string): int
  {
    if s == [] then 0 else DecimalValue(s[..|s| - 1]) * 10 + (s[|s| - 1] as int - '0' as int)
  }

  /** Assign the parameter when the token just read is its name and a Number follows; read that Number. */
  function ByName(p: Param, tokens: seq<Token>, pos: nat): Fragment<int>
  {
    if 0 < pos < |tokens| && tokens[pos - 1] == Token(PropertyName, p.name) && tokens[pos].kind == Number
    then Assign(DecimalValue(tokens[pos].text), 1)
    else NoMatch
  }

  function ByNamePolicy(): Policy<int>
  {
    Policy(p => true, ByName)
  }

  function IntDefault(typeName: string): int { 0 }

  function PointParams(): seq<Param>
  {
    [Param("x", "int"), Param("y", "int")]
  }

  function Key(name: string): Token { Token(PropertyName, name) }
  function Num(text: string): Token { Token(Number, text) }

  function DecodePoint(tokens: seq<Token>): Result<Decoded<int>, StructDecoder.DecodeError>
  {
    Decode(ByNamePolicy(), IntDefault, PointParams(), tokens, 0)
  }

  /** The slot the illustrative policy writes for property `name` with digits `digits`, if any. */
  function PointWrite(name: string, digits: string): seq<Write<int>>
  {
    if name == "x" then [Write(0, DecimalValue(digits))]
    else if name == "y" then [Write(1, DecimalValue(digits))]
    else []
  }

  lemma PointDefaults()
    ensures Defaults(IntDefault, PointParams()) == [0, 0]
  {
    var d := Defaults(IntDefault, PointParams());
    assert |d| == 2 && d[0] == 0 && d[1] == 0;
  }

  /** A Point stream that opens with a StartObject decodes to the slots its loop writes over the defaults. */
  lemma PointReached(t: seq<Token>, p: nat, w: seq<Write<int>>)
    requires |t| > 0 && t[0].kind == StartObject
    requires Loop(ByNamePolicy(), PointParams(), t, 1) == Reached(p, w)
    ensures DecodePoint(t) == Success(Decoded(Replay([0, 0], w), p))
  {
    assert CurrentAfterRead(t, 0) == t[0] && Advance(t, 0, 1) == 1;
    DecodeFromLoop(ByNamePolicy(), IntDefault, PointParams(), t, 0);
    PointDefaults();
  }

  /** One property `name: digits` of a Point: its write, if any, then the loop after the Number. */
  lemma PointPropertyStep(t: seq<Token>, pos: nat, name: string, digits: string)
    requires pos + 1 < |t| && t[pos] == Key(name) && t[pos + 1] == Num(digits)
    ensures Loop(ByNamePolicy(), PointParams(), t, pos)
      == Prepend(PointWrite(name, digits), Loop(ByNamePolicy(), PointParams(), t, pos + 2))
  {
    var P, ps := ByNamePolicy(), PointParams();
    var after := Loop(P, ps, t, pos + 2);
    assert Loop(P, ps, t, pos + 1) == after;
    assert ByName(ps[1], t, pos + 2) == NoMatch;
    if name == "x" {
      assert RunFragments(P, ps, t, pos + 2, 1) == Reached(pos + 2, []);
      assert RunFragments(P, ps, t, pos + 1, 0) == Reached(pos + 2, PointWrite(name, digits));
    } else if name == "y" {
      assert RunFragments(P, ps, t, pos + 1, 1) == Reached(pos + 2, PointWrite(name, digits));
    } else {
      assert RunFragments(P, ps, t, pos + 1, 0) == Reached(pos + 1, []);
      assert Prepend([], after) == after;
    }
  }

  /** {"y": 2, "x": 1} decodes to Point(1, 2). */
  lemma PointYThenX(t: seq<Token>)
    requires t == [Token(StartObject, ""), Key("y"), Num("2"), Key("x"), Num("1"), Token(EndObject, "")]
    ensures DecodePoint(t) == Success(Decoded([1, 2], 6))
  {
    var P, ps := ByNamePolicy(), PointParams();
    assert DecimalValue("1") == 1 && DecimalValue("2") == 2;
    assert Loop(P, ps, t, 5) == Reached(6, []);
    PointPropertyStep(t, 3, "x", "1");
    assert Loop(P, ps, t, 3) == Reached(6, [Write(0, 1)]);
    PointPropertyStep(t, 1, "y", "2");
    assert Loop(P, ps, t, 1) == Reached(6, [Write(1, 2)] + [Write(0, 1)]);
    PointReached(t, 6, [Write(1, 2)] + [Write(0, 1)]);
    assert [Write(1, 2)] + [Write(0, 1)] == [Write(1, 2), Write(0, 1)];
    assert Replay([0, 0], [Write(1, 2)]) == [0, 2];
    assert Replay([0, 0], [Write(1, 2), Write(0, 1)]) == [1, 2];
  }

  /** {"x": 1, "y": 2} decodes to Point(1, 2). */
  lemma PointXThenY(u: seq<Token>)
    requires u == [Token(StartObject, ""), Key("x"), Num("1"), Key("y"), Num("2"), Token(EndObject, "")]
    ensures DecodePoint(u) == Success(Decoded([1, 2], 6))
  {
    var P, ps := ByNamePolicy(), PointParams();
    assert DecimalValue("1") == 1 && DecimalValue("2") == 2;
    assert Loop(P, ps, u, 5) == Reached(6, []);
    PointPropertyStep(u, 3, "y", "2");
    assert Loop(P, ps, u, 3) == Reached(6, [Write(1, 2)]);
    PointPropertyStep(u, 1, "x", "1");
    assert Loop(P, ps, u, 1) == Reached(6, [Write(0, 1)] + [Write(1, 2)]);
    PointReached(u, 6, [Write(0, 1)] + [Write(1, 2)]);
    assert [Write(0, 1)] + [Write(1, 2)] == [Write(0, 1), Write(1, 2)];
    assert Replay([0, 0], [Write(0, 1)]) == [1, 0];
    assert Replay([0, 0], [Write(0, 1), Write(1, 2)]) == [1, 2];
  }

  /** Properties in either order: {"y": 2, "x": 1} and {"x": 1, "y": 2} both decode to Point(1, 2). */
  lemma PointAnyOrder(t: seq<Token>, u: seq<Token>)
    requires t == [Token(StartObject, ""), Key("y"), Num("2"), Key("x"), Num("1"), Token(EndObject, "")]
    requires u == [Token(StartObject, ""), Key("x"), Num("1"), Key("y"), Num("2"), Token(EndObject, "")]
    ensures DecodePoint(t) == DecodePoint(u) == Success(Decoded([1, 2], 6))
  {
    PointYThenX(t);
    PointXThenY(u);
  }

  /** A truncated object still yields a value: {"x": 1 with no closing brace decodes to Point(1, 0). */
  lemma PointTruncatedObject(t: seq<Token>)
    requires t == [Token(StartObject, ""), Key("x"), Num("1")]
    ensures DecodePoint(t) == Success(Decoded([1, 0], 3))
  {
    var P, ps := ByNamePolicy(), PointParams();
    assert DecimalValue("1") == 1;
    assert Loop(P, ps, t, 3) == Reached(3, []);
    PointPropertyStep(t, 1, "x", "1");
    assert Loop(P, ps, t, 1) == Reached(3, [Write(0, 1)]);
    PointReached(t, 3, [Write(0, 1)]);
    assert Replay([0, 0], [Write(0, 1)]) == [1, 0];
  }

  /** A missing property keeps its default: {"x": 1} decodes to Point(1, 0). */
  lemma PointMissingProperty(t: seq<Token>)
    requires t == [Token(StartObject, ""), Key("x"), Num("1"), Token(EndObject, "")]
    ensures DecodePoint(t) == Success(Decoded([1, 0], 4))
  {
    var P, ps := ByNamePolicy(), PointParams();
    assert DecimalValue("1") == 1;
    assert Loop(P, ps, t, 3) == Reached(4, []);
    PointPropertyStep(t, 1, "x", "1");
    assert Loop(P, ps, t, 1) == Reached(4, [Write(0, 1)]);
    PointReached(t, 4, [Write(0, 1)]);
    assert Replay([0, 0], [Write(0, 1)]) == [1, 0];
  }

  /** An unknown property is ignored: {"z": 9, "x": 1} decodes to Point(1, 0). */
  lemma PointUnknownProperty(t: seq<Token>)
    requires t == [Token(StartObject, ""), Key("z"), Num("9"), Key("x"), Num("1"), Token(EndObject, "")]
    ensures DecodePoint(t) == Success(Decoded([1, 0], 6))
  {
    var P, ps := ByNamePolicy(), PointParams();
    assert DecimalValue("1") == 1;
    assert Loop(P, ps, t, 5) == Reached(6, []);
    PointPropertyStep(t, 3, "x", "1");
    assert Loop(P, ps, t, 3) == Reached(6, [Write(0, 1)]);
    PointPropertyStep(t, 1, "z", "9");
    assert PointWrite("z", "9") == [];
    assert [] + [Write(0, 1)] == [Write(0, 1)];
    assert Loop(P, ps, t, 1) == Reached(6, [Write(0, 1)]);
    PointReached(t, 6, [Write(0, 1)]);
    assert Replay([0, 0], [Write(0, 1)]) == [1, 0];
  }

  /** A repeated property: the later occurrence wins, {"x": 1, "x": 5} decodes to Point(5, 0). */
  lemma PointRepeatedProperty(t: seq<Token>)
    requires t == [Token(StartObject, ""), Key("x"), Num("1"), Key("x"), Num("5"), Token(EndObject, "")]
    ensures DecodePoint(t) == Success(Decoded([5, 0], 6))
  {
    var P, ps := ByNamePolicy(), PointParams();
    assert DecimalValue("1") == 1 && DecimalValue("5") == 5;
    assert Loop(P, ps, t, 5) == Reached(6, []);
    PointPropertyStep(t, 3, "x", "5");
    assert Loop(P, ps, t, 3) == Reached(6, [Write(0, 5)]);
    PointPropertyStep(t, 1, "x", "1");
    assert Loop(P, ps, t, 1) == Reached(6, [Write(0, 1)] + [Write(0, 5)]);
    PointReached(t, 6, [Write(0, 1)] + [Write(0, 5)]);
    assert [Write(0, 1)] + [Write(0, 5)] == [Write(0, 1), Write(0, 5)];
    assert Replay([0, 0], [Write(0, 1)]) == [1, 0];
    assert Replay([0, 0], [Write(0, 1), Write(0, 5)]) == [5, 0];
  }

  /**
   * The loop keeps no nesting depth: in {"a": {"b": 1}, "x": 2} the EndObject
   * of the nested object ends decoding, so x keeps its default.
   */
  lemma PointNestedUnknownObject(t: seq<Token>)
    requires t == [
      Token(StartObject, ""), Key("a"), Token(StartObject, ""), Key("b"), Num("1"), Token(EndObject, ""),
      Key("x"), Num("2"), Token(EndObject, "")]
    ensures DecodePoint(t) == Success(Decoded([0, 0], 6))
  {
    var P, ps := ByNamePolicy(), PointParams();
    assert Loop(P, ps, t, 5) == Reached(6, []);
    PointPropertyStep(t, 3, "b", "1");
    assert PointWrite("b", "1") == [];
    assert Loop(P, ps, t, 3) == Reached(6, []);
    assert ByName(ps[0], t, 2) == NoMatch && ByName(ps[1], t, 2) == NoMatch;
    assert RunFragments(P, ps, t, 2, 0) == Reached(2, []);
    assert Loop(P, ps, t, 1) == Reached(6, []);
    PointReached(t, 6, []);
  }

  /** A stream that does not start with an object fails. */
  lemma PointNotAnObject()
    ensures DecodePoint([Num("1")]) == Failure(ExpectedStartObject)
  {
  }

  /** Among Point(x), Point(x, y) and Point(y, x) the generator picks Point(x, y). */
  lemma PointConstructorChoice()
    ensures GenerateStruct(StructDecl(
        "Point", [Attribute([MarkerName])], [Namespace("Geometry"), CompilationUnit],
        [[Param("x", "int")], PointParams(), [Param("y", "int"), Param("x", "int")]]))
      == Generated(StructArtifact("PointSerializer", "Geometry", "PointSerializer", "Instance", "Point", PointParams()))
  {
  }

  /** A struct inside a file-scoped namespace has no namespace the generator recognises. */
  lemma FileScopedNamespaceFails()
    ensures GenerateStruct(StructDecl(
        "Point", [Attribute([MarkerName])], [FileScopedNamespace("Geometry"), CompilationUnit], [PointParams()]))
      == Failed("No namespace for Point")
  {
  }

  function ColorLabels(): seq<string> { ["Red", "Green", "Blue"] }

  /** "green" decodes to Color.Green; "purple" is an unknown label. */
  lemma ColorLabelsDecode()
    ensures EnumDecoder.DecodeEnum("Paint.Color", ColorLabels(), [Token(String, "green")], 0)
      == Success(EnumDecoder.DecodedLabel(1, 1))
    ensures EnumDecoder.DecodeEnum("Paint.Color", ColorLabels(), [Token(String, "purple")], 0)
      == Failure(EnumDecoder.UnknownLabel("purple"))
    ensures EnumDecoder.DecodeEnum("Paint.Color", ColorLabels(), [Num("1")], 0)
      == Failure(EnumDecoder.ExpectedString("Paint.Color"))
  {
  }

  /**
   * Read past the end: the String kind is still current but its text is
   * gone, so the empty text is looked up and is not a label.
   */
  lemma ColorReadPastEnd(t: seq<Token>)
    requires t == [Token(String, "green")]
    ensures EnumDecoder.DecodeEnum("Paint.Color", ColorLabels(), t, 1) == Failure(EnumDecoder.UnknownLabel(""))
  {
    assert CurrentAfterRead(t, 1) == Token(String, "");
  }

  /** Read past the end: the StartObject is still current, so a Point of defaults comes back. */
  lemma PointReadPastEnd(t: seq<Token>)
    requires t == [Token(StartObject, "")]
    ensures Decode(ByNamePolicy(), IntDefault, PointParams(), t, 1) == Success(Decoded([0, 0], 1))
  {
    assert CurrentAfterRead(t, 1) == t[0] && Advance(t, 1, 1) == 1;
    assert Loop(ByNamePolicy(), PointParams(), t, 1) == Reached(1, []);
    PointDefaults();
  }
}

=== FILE: struct_decoder.dfy ===
/**
 * What the emitted Deserialize method of a struct decoder does. It reads a
 * StartObject token, declares one slot per constructor parameter holding that
 * parameter type's default, then reads tokens until an EndObject or the end of
 * the stream, running the per-parameter dispatch fragments on every
 * PropertyName, and finally calls the constructor with the slots in
 * parameter order.
 *
 * The fragments come from the naming policy, whose code is not part of this
 * model: a policy is given as whether a parameter renders at all and what its
 * fragment does when run at a cursor position.
 */
module StructDecoder {
  import opened Wrappers
  import opened Tokens
  import opened Descriptors

  /**
   * What one dispatch fragment does when it runs: nothing (the key is not its
   * own), or it calls Read `readCount` times and assigns `value` to its slot, or
   * its value conversion throws.
   */
  datatype Fragment<V> = NoMatch | Assign(value: V, readCount: nat) | Raise

  /**
   * A naming policy: `renders` decides whether a parameter gets a fragment,
   * `dispatch` is that fragment run with the cursor just after the token it
   * looks at.
   */
  datatype Policy<V> = Policy(
    renders: Param -> bool,
    dispatch: (Param, seq<Token>, nat) -> Fragment<V>)

  /** An assignment to the slot of parameter number `slot`. */
  datatype Write<V> = Write(slot: nat, value: V)

  /** Where a run ends: an exception was thrown, or the cursor reached `pos` after the writes `writes`, in order. */
  datatype Run<V> = Thrown | Reached(pos: nat, writes: seq<Write<V>>)

  /** A decoded value: the constructor's arguments in parameter order, and the cursor afterwards. */
  datatype Decoded<V> = Decoded(args: seq<V>, pos: nat)

  /** Why decoding failed: no StartObject first, or a fragment's value conversion threw. */
  datatype DecodeError = ExpectedStartObject | ConversionFailed

  /** Every write targets a parameter that exists and renders. */
  predicate WritesRender<V>(policy: Policy<V>, params: seq<Param>, writes: seq<Write<V>>)
  {
    forall k :: 0 <= k < |writes| ==>
      writes[k].slot < |params| && policy.renders(params[writes[k].slot])
  }

  predicate SlotsInRange<V>(writes: seq<Write<V>>, n: nat)
  {
    forall k :: 0 <= k < |writes| ==> writes[k].slot < n
  }

  /** Writes `w` happen before whatever `run` does. */
  function Prepend<V>(w: seq<Write<V>>, run: Run<V>): Run<V>
  {
    match run
    case Thrown => Thrown
    case Reached(p, rest) => Reached(p, w + rest)
  }

  lemma PrependPrepend<V>(a: seq<Write<V>>, b: seq<Write<V>>, run: Run<V>)
    ensures Prepend(a, Prepend(b, run)) == Prepend(a + b, run)
  {
  }

  /**
   * The fragments of parameters `i` onwards, in parameter order, run one
   * after the other on the same cursor; a parameter that does not render has
   * no fragment.
   */
  function RunFragments<V>(policy: Policy<V>, params: seq<Param>, tokens: seq<Token>, pos: nat, i: nat): (r: Run<V>)
    requires pos <= |tokens| && i <= |params|
    ensures r.Reached? ==> pos <= r.pos <= |tokens|
    ensures r.Reached? ==> WritesRender(policy, params, r.writes)
    ensures r.Reached? ==> forall k :: 0 <= k < |r.writes| ==> i <= r.writes[k].slot
    ensures r.Reached? ==> forall a, b :: 0 <= a < b < |r.writes| ==> r.writes[a].slot < r.writes[b].slot
    decreases |params| - i
  {
    if i == |params| then Reached(pos, [])
    else if !policy.renders(params[i]) then RunFragments(policy, params, tokens, pos, i + 1)
    else match policy.dispatch(params[i], tokens, pos)
      case NoMatch => RunFragments(policy, params, tokens, pos, i + 1)
      case Raise => Thrown
      case Assign(v, n) => Prepend([Write(i, v)], RunFragments(policy, params, tokens, Advance(tokens, pos, n), i + 1))
  }

  /** A token the loop passes over without touching a slot. */
  predicate PassedOver(t: Token)
  {
    t.kind != EndObject && t.kind != PropertyName
  }

  /**
   * The `while (reader.Read())` loop from cursor `pos`: the end of the stream
   * or an EndObject ends it, a PropertyName runs the fragments, any other
   * token is passed over.
   */
  function Loop<V>(policy: Policy<V>, params: seq<Param>, tokens: seq<Token>, pos: nat): (r: Run<V>)
    requires pos <= |tokens|
    ensures r.Reached? ==> pos <= r.pos <= |tokens|
    ensures r.Reached? ==> WritesRender(policy, params, r.writes)
    ensures r.Reached? ==> r.pos == |tokens| || (pos < r.pos && tokens[r.pos - 1].kind == EndObject)
    decreases |tokens| - pos
  {
    if pos == |tokens| then Reached(pos, [])
    else if tokens[pos].kind == EndObject then Reached(pos + 1, [])
    else if tokens[pos].kind == PropertyName then
      match RunFragments(policy, params, tokens, pos + 1, 0)
      case Thrown => Thrown
      case Reached(p, w) => Prepend(w, Loop(policy, params, tokens, p))
    else Loop(policy, params, tokens, pos + 1)
  }

  /** The slots as declared: each parameter's type default, in parameter order. */
  function Defaults<V>(zero: string -> V, params: seq<Param>): seq<V>
  {
    seq(|params|, k requires 0 <= k < |params| => zero(params[k].typeName))
  }

  /** The slots after the writes `writes`, applied in order. */
  function Replay<V>(slots: seq<V>, writes: seq<Write<V>>): (r: seq<V>)
    requires SlotsInRange(writes, |slots|)
    ensures |r| == |slots|
  {
    if writes == [] then slots
    else
      var last := writes[|writes| - 1];
      Replay(slots, writes[..|writes| - 1])[last.slot := last.value]
  }

  /** The value of the last write to slot `k`, if any. */
  function LastWrite<V>(writes: seq<Write<V>>, k: nat): (r: Option<V>)
    ensures r.None? <==> forall j :: 0 <= j < |writes| ==> writes[j].slot != k
    ensures r.Some? ==>
      exists j :: 0 <= j < |writes| && writes[j] == Write(k, r.value) &&
        forall j' :: j < j' < |writes| ==> writes[j'].slot != k
  {
    if writes == [] then None
    else if writes[|writes| - 1].slot == k then Some(writes[|writes| - 1].value)
    else LastWrite(writes[..|writes| - 1], k)
  }

  /** After replaying writes, a slot holds its last write, or its first value when nothing wrote it. */
  lemma {:induction false} ReplayAt<V>(slots: seq<V>, writes: seq<Write<V>>, k: nat)
    requires SlotsInRange(writes, |slots|) && k < |slots|
    ensures Replay(slots, writes)[k] == match LastWrite(writes, k) case Some(v) => v case None => slots[k]
  {
    if writes != [] {
      ReplayAt(slots, writes[..|writes| - 1], k);
    }
  }

  /**
   * The whole Deserialize body from cursor `start`: the first token must be a
   * StartObject, then the loop runs, then the constructor receives the slots.
   */
  function Decode<V>(policy: Policy<V>, zero: string -> V, params: seq<Param>, tokens: seq<Token>, start: nat)
    : (r: Result<Decoded<V>, DecodeError>)
    requires start <= |tokens|
    ensures r.Failure? ==> r.error == ConversionFailed || CurrentAfterRead(tokens, start).kind != StartObject
    ensures r.Failure? && r.error == ConversionFailed ==> !NeverRaises(policy, params, tokens)
    ensures r.Success? ==>
      |r.value.args| == |params| && start <= r.value.pos <= |tokens| &&
      (r.value.pos == |tokens| || (0 < r.value.pos && tokens[r.value.pos - 1].kind == EndObject))
  {
    if CurrentAfterRead(tokens, start).kind != StartObject then Failure(ExpectedStartObject)
    else match Loop(policy, params, tokens, Advance(tokens, start, 1))
      case Thrown =>
        LoopCompletes(policy, params, tokens, Advance(tokens, start, 1));
        Failure(ConversionFailed)
      case Reached(p, w) => Success(Decoded(Replay(Defaults(zero, params), w), p))
  }

  /** Once the first Read leaves a StartObject current, decoding is the loop from the cursor after it. */
  lemma DecodeFromLoop<V>(policy: Policy<V>, zero: string -> V, params: seq<Param>, tokens: seq<Token>, start: nat)
    requires start <= |tokens| && CurrentAfterRead(tokens, start).kind == StartObject
    ensures Decode(policy, zero, params, tokens, start) ==
      match Loop(policy, params, tokens, Advance(tokens, start, 1))
      case Thrown => Failure(ConversionFailed)
      case Reached(p, w) => Success(Decoded(Replay(Defaults(zero, params), w), p))
  {
  }

  /**
   * Decoding fails, with nothing constructed, exactly when the reader's
   * current token after the first Read is not a StartObject. The result of
   * that Read is not looked at: at the end of the stream the previous token
   * is still current.
   */
  lemma StartObjectRequired<V>(policy: Policy<V>, zero: string -> V, params: seq<Param>, tokens: seq<Token>, start: nat)
    requires start <= |tokens|
    ensures Decode(policy, zero, params, tokens, start) == Failure(ExpectedStartObject)
        <==> CurrentAfterRead(tokens, start).kind != StartObject
  {
  }

  /**
   * A decoded value has one argument per constructor parameter, in parameter
   * order; each is the value of the last fragment that assigned that
   * parameter's slot, or the default of its type when none did.
   */
  lemma DecodedArguments<V>(policy: Policy<V>, zero: string -> V, params: seq<Param>, tokens: seq<Token>, start: nat, k: nat)
    requires start <= |tokens|
    requires Decode(policy, zero, params, tokens, start).Success?
    requires k < |params|
    ensures var run := Loop(policy, params, tokens, Advance(tokens, start, 1));
      var args := Decode(policy, zero, params, tokens, start).value.args;
      run.Reached? && |args| == |params| &&
      args[k] == match LastWrite(run.writes, k) case Some(v) => v case None => zero(params[k].typeName)
  {
    var run := Loop(policy, params, tokens, Advance(tokens, start, 1));
    ReplayAt(Defaults(zero, params), run.writes, k);
  }

  /** A parameter for which the policy renders nothing always receives its type's default. */
  lemma NonRenderingKeepsDefault<V>(policy: Policy<V>, zero: string -> V, params: seq<Param>, tokens: seq<Token>, start: nat, k: nat)
    requires start <= |tokens|
    requires Decode(policy, zero, params, tokens, start).Success?
    requires k < |params| && !policy.renders(params[k])
    ensures Decode(policy, zero, params, tokens, start).value.args[k] == zero(params[k].typeName)
  {
    DecodedArguments(policy, zero, params, tokens, start, k);
  }

  /** A stretch of tokens that are neither EndObject nor PropertyName leaves the loop's outcome as it was. */
  lemma {:induction false} SkipStretch<V>(policy: Policy<V>, params: seq<Param>, tokens: seq<Token>, pos: nat, q: nat)
    requires pos <= q <= |tokens|
    requires forall j :: pos <= j < q ==> PassedOver(tokens[j])
    ensures Loop(policy, params, tokens, pos) == Loop(policy, params, tokens, q)
    decreases q - pos
  {
    if pos < q {
      SkipStretch(policy, params, tokens, pos + 1, q);
    }
  }

  /**
   * When no PropertyName comes before the first EndObject, that EndObject
   * ends decoding whatever follows it, and every argument is a default.
   */
  lemma EndObjectEndsDecoding<V>(policy: Policy<V>, zero: string -> V, params: seq<Param>, tokens: seq<Token>, start: nat, q: nat)
    requires start < q < |tokens|
    requires tokens[start].kind == StartObject && tokens[q].kind == EndObject
    requires forall j :: start < j < q ==> PassedOver(tokens[j])
    ensures Decode(policy, zero, params, tokens, start) == Success(Decoded(Defaults(zero, params), q + 1))
  {
    SkipStretch(policy, params, tokens, start + 1, q);
  }

  /**
   * When the stream runs out before any EndObject or PropertyName, it still
   * decodes, to the defaults, with the cursor at the end of the stream.
   */
  lemma ExhaustedStreamDecodes<V>(policy: Policy<V>, zero: string -> V, params: seq<Param>, tokens: seq<Token>, start: nat)
    requires start < |tokens| && tokens[start].kind == StartObject
    requires forall j :: start < j < |tokens| ==> PassedOver(tokens[j])
    ensures Decode(policy, zero, params, tokens, start) == Success(Decoded(Defaults(zero, params), |tokens|))
  {
    SkipStretch(policy, params, tokens, start + 1, |tokens|);
  }

  /** No fragment emitted for a rendering parameter throws, wherever the cursor stands. */
  ghost predicate NeverRaises<V>(policy: Policy<V>, params: seq<Param>, tokens: seq<Token>)
  {
    forall k: nat, q: nat :: k < |params| && policy.renders(params[k]) && q <= |tokens| ==>
      !policy.dispatch(params[k], tokens, q).Raise?
  }

  /** When no fragment throws, running the fragments always reaches a cursor. */
  lemma {:induction false} FragmentsComplete<V>(policy: Policy<V>, params: seq<Param>, tokens: seq<Token>, pos: nat, i: nat)
    requires pos <= |tokens| && i <= |params|
    requires NeverRaises(policy, params, tokens)
    ensures RunFragments(policy, params, tokens, pos, i).Reached?
    decreases |params| - i
  {
    if i < |params| {
      FragmentsComplete(policy, params, tokens, pos, i + 1);
      if policy.renders(params[i]) && policy.dispatch(params[i], tokens, pos).Assign? {
        FragmentsComplete(policy, params, tokens, Advance(tokens, pos, policy.dispatch(params[i], tokens, pos).readCount), i + 1);
      }
    }
  }

  /** When no fragment throws, the loop always ends normally, whatever the tokens. */
  lemma {:induction false} LoopCompletes<V>(policy: Policy<V>, params: seq<Param>, tokens: seq<Token>, pos: nat)
    requires pos <= |tokens|
    ensures NeverRaises(policy, params, tokens) ==> Loop(policy, params, tokens, pos).Reached?
    decreases |tokens| - pos
  {
    if NeverRaises(policy, params, tokens) && pos < |tokens| && tokens[pos].kind != EndObject {
      if tokens[pos].kind == PropertyName {
        FragmentsComplete(policy, params, tokens, pos + 1, 0);
        LoopCompletes(policy, params, tokens, RunFragments(policy, params, tokens, pos + 1, 0).pos);
      } else {
        LoopCompletes(policy, params, tokens, pos + 1);
      }
    }
  }

  /**
   * When no fragment throws, decoding succeeds exactly when the first Read
   * leaves a StartObject current: unknown properties and unexpected tokens
   * inside the object are never errors.
   */
  lemma NoThrowDecodes<V>(policy: Policy<V>, zero: string -> V, params: seq<Param>, tokens: seq<Token>, start: nat)
    requires start <= |tokens|
    requires NeverRaises(policy, params, tokens)
    ensures Decode(policy, zero, params, tokens, start).Success?
        <==> CurrentAfterRead(tokens, start).kind == StartObject
  {
    LoopCompletes(policy, params, tokens, Advance(tokens, start, 1));
  }

  /**
   * When no fragment throws and no EndObject lies ahead, the loop runs until
   * the stream is exhausted, however many properties it reads on the way.
   */
  lemma {:induction false} LoopRunsToEnd<V>(policy: Policy<V>, params: seq<Param>, tokens: seq<Token>, pos: nat)
    requires pos <= |tokens|
    requires NeverRaises(policy, params, tokens)
    requires forall j :: pos <= j < |tokens| ==> tokens[j].kind != EndObject
    ensures Loop(policy, params, tokens, pos).Reached?
    ensures Loop(policy, params, tokens, pos).pos == |tokens|
    decreases |tokens| - pos
  {
    if pos < |tokens| {
      if tokens[pos].kind == PropertyName {
        FragmentsComplete(policy, params, tokens, pos + 1, 0);
        LoopRunsToEnd(policy, params, tokens, RunFragments(policy, params, tokens, pos + 1, 0).pos);
      } else {
        LoopRunsToEnd(policy, params, tokens, pos + 1);
      }
    }
  }

  /**
   * A truncated object, with no EndObject after its StartObject, still decodes
   * when no fragment throws: the cursor ends at the end of the stream and the
   * arguments are the defaults overwritten by the fragments' assignments.
   */
  lemma TruncatedObjectDecodes<V>(policy: Policy<V>, zero: string -> V, params: seq<Param>, tokens: seq<Token>, start: nat)
    requires start < |tokens| && tokens[start].kind == StartObject
    requires NeverRaises(policy, params, tokens)
    requires forall j :: start < j < |tokens| ==> tokens[j].kind != EndObject
    ensures var run := Loop(policy, params, tokens, Advance(tokens, start, 1));
      run.Reached? &&
      Decode(policy, zero, params, tokens, start) == Success(Decoded(Replay(Defaults(zero, params), run.writes), |tokens|))
  {
    LoopRunsToEnd(policy, params, tokens, start + 1);
  }

  /** Replaying two runs of writes one after the other is replaying them joined. */
  lemma {:induction false} ReplayAppend<V>(slots: seq<V>, a: seq<Write<V>>, b: seq<Write<V>>)
    requires SlotsInRange(a, |slots|) && SlotsInRange(b, |slots|)
    ensures SlotsInRange(a + b, |slots|)
    ensures Replay(Replay(slots, a), b) == Replay(slots, a + b)
  {
    if b != [] {
      var n := |b| - 1;
      assert (a + b)[..|a + b| - 1] == a + b[..n];
      ReplayAppend(slots, a, b[..n]);
    } else {
      assert a + b == a;
    }
  }

  /**
   * The `case JsonTokenType.PropertyName:` arm: every rendering parameter's
   * fragment, in parameter order, with the cursor just after the property name.
   */
  method DispatchProperty<V>(policy: Policy<V>, params: seq<Param>, tokens: seq<Token>, start: nat, slots: array<V>)
    returns (thrown: bool, pos: nat)
    requires start <= |tokens| && slots.Length == |params|
    modifies slots
    ensures var run := RunFragments(policy, params, tokens, start, 0);
      if thrown then run.Thrown?
      else run.Reached? && run.pos == pos && slots[..] == Replay(old(slots[..]), run.writes)
  {
    ghost var base := slots[..];
    ghost var run := RunFragments(policy, params, tokens, start, 0);
    ghost var added: seq<Write<V>> := [];
    pos := start;
    var i := 0;
    while i < |params|
      invariant 0 <= i <= |params|
      invariant start <= pos <= |tokens|
      invariant SlotsInRange(added, |params|)
      invariant slots[..] == Replay(base, added)
      invariant run == Prepend(added, RunFragments(policy, params, tokens, pos, i))
    {
      if policy.renders(params[i]) {
        match policy.dispatch(params[i], tokens, pos) {
          case NoMatch =>
          case Raise =>
            return true, pos;
          case Assign(v, n) =>
            PrependPrepend(added, [Write(i, v)], RunFragments(policy, params, tokens, Advance(tokens, pos, n), i + 1));
            slots[i] := v;
            added := added + [Write(i, v)];
            pos := Advance(tokens, pos, n);
        }
      }
      i := i + 1;
    }
    assert run == Reached(pos, added);
    return false, pos;
  }

  /**
   * The `while (reader.Read())` loop over the slot array, from cursor
   * `start`: it throws exactly when `Loop` does, and otherwise leaves the
   * cursor and the slots as the loop's writes say.
   */
  method ReadProperties<V>(policy: Policy<V>, params: seq<Param>, tokens: seq<Token>, start: nat, slots: array<V>)
    returns (thrown: bool, pos: nat)
    requires start <= |tokens| && slots.Length == |params|
    modifies slots
    ensures var run := Loop(policy, params, tokens, start);
      if thrown then run.Thrown?
      else run.Reached? && run.pos == pos && slots[..] == Replay(old(slots[..]), run.writes)
  {
    ghost var base := slots[..];
    ghost var goal := Loop(policy, params, tokens, start);
    ghost var writes: seq<Write<V>> := [];
    pos := start;
    while pos < |tokens|
      invariant start <= pos <= |tokens|
      invariant SlotsInRange(writes, |params|)
      invariant slots[..] == Replay(base, writes)
      invariant goal == Prepend(writes, Loop(policy, params, tokens, pos))
      decreases |tokens| - pos
    {
      var token := tokens[pos];
      pos := pos + 1;
      if token.kind == EndObject {
        assert goal == Prepend(writes, Reached(pos, []));
        break;
      } else if token.kind == PropertyName {
        ghost var run := RunFragments(policy, params, tokens, pos, 0);
        thrown, pos := DispatchProperty(policy, params, tokens, pos, slots);
        if thrown {
          return;
        }
        ReplayAppend(base, writes, run.writes);
        PrependPrepend(writes, run.writes, Loop(policy, params, tokens, pos));
        writes := writes + run.writes;
      }
    }
    assert goal == Reached(pos, writes);
    return false, pos;
  }

  /**
   * The emitted Deserialize body, step by step: a cursor over the token
   * stream and an array holding one slot per constructor parameter.
   */
  method DecodeStruct<V>(policy: Policy<V>, zero: string -> V, params: seq<Param>, tokens: seq<Token>, start: nat)
    returns (r: Result<Decoded<V>, DecodeError>)
    requires start <= |tokens|
    ensures r == Decode(policy, zero, params, tokens, start)
  {
    var current := CurrentAfterRead(tokens, start);
    if current.kind != StartObject {
      return Failure(ExpectedStartObject);
    }
    DecodeFromLoop(policy, zero, params, tokens, start);
    var defaults := Defaults(zero, params);
    var slots := new V[|params|](k requires 0 <= k < |params| => defaults[k]);
    assert slots[..] == defaults;
    var thrown, pos := ReadProperties(policy, params, tokens, Advance(tokens, start, 1), slots);
    if thrown {
      return Failure(ConversionFailed);
    }
    return Success(Decoded(slots[..], pos));
  }
}

=== FILE: tokens.dfy ===
/**
 * The token stream the generated decoders read. A JSON reader is a forward-only
 * cursor over already-typed tokens: the model takes the whole stream as a
 * sequence and the cursor as an index into it.
 */
module Tokens {

  /** The token kinds a JSON reader reports; NoToken (the reader's None) is the kind before any successful read. */
  datatype TokenKind =
    | NoToken
    | StartObject | EndObject
    | StartArray | EndArray
    | PropertyName | Comment
    | String | Number | True | False | Null

  /** A token and its text: the property name, or the scalar as written. */
  datatype Token = Token(kind: TokenKind, text: string)

  /**
   * Where the cursor stands after `n` more calls of the reader's Read from
   * position `pos`: a Read at the end of the stream fails and does not move it.
   */
  function Advance(tokens: seq<Token>, pos: nat, n: nat): (r: nat)
    requires pos <= |tokens|
    ensures pos <= r <= |tokens|
    ensures r == pos + n || r == |tokens|
    ensures pos + n <= |tokens| ==> r == pos + n
  {
    if pos + n <= |tokens| then pos + n else |tokens|
  }

  /**
   * The reader's current token after one Read from position `pos`, whether
   * or not that Read succeeded. Its kind is that of the last token read, if
   * any; its text is that of the token this Read consumed, and a Read that
   * fails at the end of the stream clears the text but keeps the kind.
   */
  function CurrentAfterRead(tokens: seq<Token>, pos: nat): (r: Token)
    requires pos <= |tokens|
    ensures Advance(tokens, pos, 1) == 0 ==> r.kind == NoToken
    ensures 0 < Advance(tokens, pos, 1) ==> r.kind == tokens[Advance(tokens, pos, 1) - 1].kind
    ensures r.text == if Advance(tokens, pos, 1) == pos + 1 then tokens[pos].text else ""
  {
    if pos < |tokens| then tokens[pos]
    else if pos == 0 then Token(NoToken, "")
    else Token(tokens[pos - 1].kind, "")
  }
}

=== FILE: wrappers.dfy ===
/** Option and Result, the error-carrying shapes used by the rest of the model. */
module Wrappers {

  datatype Option<+T> = None | Some(value: T)

  datatype Result<+R, +E> = Success(value: R) | Failure(error: E)
}
